=== FILE: README.md ===
# ChatBot prompt gateway — Dafny model

This project models the prompt-assembly and response-normalisation path of the
ChatBot Spring application: the handlers that take a user prompt, reject a missing
(or, for `PromptEndpoint`, empty) prompt before any outbound call, build the chat
messages (a system message followed by the user's message), send them through one
of three transports (Azure SDK client, RestTemplate, WebClient), and flatten the
provider's ordered choices into one joined text.

Everything is pure. The handlers are functions of their configuration, the inbound
request and a `provider` function that stands for the outbound call. Each handler
returns a `Handled` value with two parts:

- `sent`: the outbound request it made, or `None` when it answered without calling out.
- `outcome`: the response it returned, or the exception of the failed call, which
  the handlers do not catch.

Modules:

- `Wrappers`: `Option` (a Java `null`) and `Result`.
- `Http`: the inbound `Request`, headers, responses, faults, and `Handled`.
- `Text`: the `String` operations used (prefix truncation, `String.join`), plus a
  splitter that serves as the inverse of the join.
- `Base32`: `BigInteger.toString(32)` of the 130-bit random value behind the hash.
- `OpenAIModel`: the `ChatRequest` record, its component order and its JSON field names.
- `OpenAIConfig`: `buildRequest`, the RestTemplate interceptor headers and the
  WebClient default headers.
- `Completions`: the Azure SDK message and choice values, the loop that extracts the
  choices' contents, and the joined answer.
- `PromptEndpoint` and `Endpoint`: the handlers.

## Model

| member | source | states |
|---|---|---|
| Text.Truncate | src/main/java/chat/app/userapi/PromptEndpoint.java:96 | the cut text is a prefix of the input; its length is `min(limit, length)`; it is the whole input when that fits |
| Text.TruncateIsLongest | src/main/java/chat/app/userapi/PromptEndpoint.java:96 | no prefix within the limit is longer than the cut text, and every such prefix is a prefix of it |
| Text.JoinLength | src/main/java/chat/app/userapi/PromptEndpoint.java:82 | the joined length is the parts' total length plus one separator per gap between neighbours |
| Text.JoinSnoc | src/main/java/chat/app/userapi/PromptEndpoint.java:82 | for any separator, joining one more part appends the separator and then that part to the joined text, so the parts appear in order with one separator between neighbours |
| Text.SplitJoin | src/main/java/chat/app/userapi/Endpoint.java:127 | joining with a one-character separator that no part contains is undone by splitting at it, so parts and their order are recoverable |
| Base32.ToBase32 | src/main/java/chat/app/userapi/PromptEndpoint.java:48 | the rendering is non-empty, uses only the digits 0-9a-v, and has no leading zero unless the value is 0 |
| Base32.FromToBase32 | src/main/java/chat/app/userapi/PromptEndpoint.java:48 | reading the base-32 rendering back gives the original value |
| Base32.ToFromBase32 | src/main/java/chat/app/userapi/PromptEndpoint.java:48 | every canonical base-32 numeral is the rendering of its value, so rendering is a bijection onto canonical numerals |
| Base32.ToBase32Length | src/main/java/chat/app/userapi/PromptEndpoint.java:48 | a value below 32^k renders in at most k digits |
| Base32.RandomHash | src/main/java/chat/app/userapi/PromptEndpoint.java:47-49 | the hash of a value in [0, 2^130) has 1 to 26 base-32 digits, no line break, and reads back as that value |
| OpenAIModel.ComponentsAreAllDistinct | src/main/java/chat/app/openai/ChatRequest.java:9-15 | the record has exactly seven components, each once, in declaration order |
| OpenAIModel.WireNameInjective | src/main/java/chat/app/openai/ChatRequest.java:9-15 | the `@JsonProperty` renaming gives distinct field names to distinct components |
| OpenAIModel.ToWire | src/main/java/chat/app/openai/ChatRequest.java:9-15 | serialisation emits seven fields in component order under the wire names `messages`, `max_tokens`, `temperature`, `frequency_penalty`, `presence_penalty`, `top_p`, `stop` |
| OpenAIModel.WireRoundTrip | src/main/java/chat/app/openai/ChatRequest.java:9-15 | reading the serialised fields back yields the same request; a null stop set stays null |
| OpenAIModel.WireEqualIffEqual | src/main/java/chat/app/openai/ChatRequest.java:9 | two requests serialise alike exactly when all seven components are equal (record value equality) |
| OpenAIConfig.BuildRequest | src/main/java/chat/app/openai/OpenAIConfig.java:59-75 | exactly two messages, "system" with the fixed assistant preamble then "user" carrying the prompt; 800 max tokens; no stop set |
| OpenAIConfig.BuildRequestIgnoresConfig | src/main/java/chat/app/openai/OpenAIConfig.java:59-75 | the request depends only on the prompt, never on the configured key, base URL or endpoint |
| OpenAIConfig.BuildRequestInjective | src/main/java/chat/app/openai/OpenAIConfig.java:62-63 | the prompt is carried verbatim: two requests are equal exactly when their prompts are |
| OpenAIConfig.Intercept | src/main/java/chat/app/openai/OpenAIConfig.java:91-96 | the interceptor keeps the request's headers and adds four: the fixed User-Agent, JSON Content-Type, `Authorization: Bearer <key>` and `api-key: <key>` |
| OpenAIConfig.InterceptedCredentialsAgree | src/main/java/chat/app/openai/OpenAIConfig.java:94-95 | the bearer token of the added Authorization header equals the added api-key value, which is the configured key |
| OpenAIConfig.WebClientHeaders | src/main/java/chat/app/openai/OpenAIConfig.java:50-54 | the WebClient's default headers are exactly two, a JSON Content-Type and the api-key header with the configured key, and no others |
| Completions.Contents | src/main/java/chat/app/userapi/PromptEndpoint.java:101-113 | one text per choice, each that choice's message content, in the provider's order |
| Completions.CollectResponses | src/main/java/chat/app/userapi/PromptEndpoint.java:101-113 | the loop over the choices (the same loop as Endpoint.java:115-123) yields exactly the contents in the provider's order |
| Completions.ContentsIgnoreIndex | src/main/java/chat/app/userapi/PromptEndpoint.java:104-110 | the choice index is never used: replies that differ only in their indexes give the same texts |
| Completions.ContentsKeepReplyOrder | src/main/java/chat/app/userapi/Endpoint.java:117-123 | choices numbered 2 then 1 come out as "b", "a": array order, not index order |
| Completions.Answer | src/main/java/chat/app/userapi/PromptEndpoint.java:82 | the body is empty for no choices, is the content itself for one choice, and otherwise has the contents' total length plus one separator per gap |
| Completions.AnswerSnoc | src/main/java/chat/app/userapi/PromptEndpoint.java:82 | for any line separator ("\n" or "\r\n"), one more choice extends the body by the separator and that choice's content |
| Completions.AnswerLines | src/main/java/chat/app/userapi/Endpoint.java:127 | with "\n" as separator and single-line contents, the body splits back into exactly the contents, in order |
| PromptEndpoint.CreateMessages | src/main/java/chat/app/userapi/PromptEndpoint.java:92-99 | SYSTEM with the configured message, then USER holding a prefix of hash + "\n" + prompt of length the smaller of maxTokenLength and the combined length, the whole text when it fits |
| PromptEndpoint.PromptCall | src/main/java/chat/app/userapi/PromptEndpoint.java:67-77 | the client call uses the configured base URL, key, deployment and temperature, and system-then-user messages |
| PromptEndpoint.Prompt | src/main/java/chat/app/userapi/PromptEndpoint.java:59-83 | a null or empty prompt yields "User prompt cannot be empty" with status 200 and no call; otherwise one call, and its contents joined with the line separator, or its exception |
| PromptEndpoint.UserContentIsTruncatedPrefix | src/main/java/chat/app/userapi/PromptEndpoint.java:95-96 | for the hash of the random value, the USER content is a prefix of hash + "\n" + prompt, of length the smaller of maxTokenLength and the combined length |
| PromptEndpoint.FirstLineIsHash | src/main/java/chat/app/userapi/PromptEndpoint.java:95-96 | whenever the limit leaves room for the hash and its line break, the first line of the USER content is the hash and the rest is the kept prefix of the prompt, the whole prompt when nothing was cut |
| PromptEndpoint.FirstLineIsHashAboveMax | src/main/java/chat/app/userapi/PromptEndpoint.java:47-49 | with a limit above 26, the first line of the USER content is the hash for every random value |
| PromptEndpoint.SingleChoiceIsBody | src/main/java/chat/app/userapi/PromptEndpoint.java:82 | with one choice the body equals that choice's content, whatever the platform line separator |
| PromptEndpoint.RejectionIgnoresProvider | src/main/java/chat/app/userapi/PromptEndpoint.java:61-64 | the answer to a null or empty prompt is the same for any two providers, settings (any length limit, negative included), random values and line separators |
| Endpoint.AmaUri | src/main/java/chat/app/userapi/Endpoint.java:74-76 | the `ama` target carries exactly one query parameter, `api-version=2023-07-01-preview` |
| Endpoint.AmaUriString | src/main/java/chat/app/userapi/Endpoint.java:74-76 | the rendered target is base URL + "/" + endpoint + "?api-version=2023-07-01-preview", and, when the path has no "?" of its own, it splits at "?" back into those two parts |
| Endpoint.Ama | src/main/java/chat/app/userapi/Endpoint.java:64-84 | a null prompt gets the constant 400 response and nothing is sent; otherwise `buildRequest(prompt)` is posted to the `ama` target with the interceptor's headers, and the reply is returned as is |
| Endpoint.AmaRejection | src/main/java/chat/app/userapi/Endpoint.java:33-40 | the null-prompt response has status 400 and exactly one choice, index 1, with content "User request cannot be null" |
| Endpoint.PromptCall | src/main/java/chat/app/userapi/Endpoint.java:94-113 | the client uses the configured base URL and key; the messages are the senior-engineer SYSTEM preamble, then USER with the prompt verbatim |
| Endpoint.Prompt | src/main/java/chat/app/userapi/Endpoint.java:86-128 | only a null prompt is rejected, with "User request cannot be null" and status 200; an empty prompt is sent; the contents are joined with "\n" |
| Endpoint.PromptSingleChoice | src/main/java/chat/app/userapi/Endpoint.java:108-127 | the prompt reaches the provider unchanged, and a one-choice reply becomes exactly that choice's content |
| Endpoint.CallOpenAI | src/main/java/chat/app/userapi/Endpoint.java:151-165 | the WebClient call posts `buildRequest(prompt)` to the endpoint path under the configured base URL, with the configured key as its api-key header |
| Endpoint.AcceptRequest | src/main/java/chat/app/userapi/Endpoint.java:131-143 | a null prompt gets `BotResponse("No RESPONSE")` with status 200 and `callOpenAI` is not run; otherwise that call's response is returned |
| Endpoint.SameRequestBody | src/main/java/chat/app/userapi/Endpoint.java:72 | `ama` and `callOpenAI` (line 152) send the same body for the same prompt, carrying the prompt unchanged |

## Behaviour of the code worth knowing

- A reply with no choices is not an error: both `/prompt` handlers join an empty
  list and return "" with status 200 (`Completions.Answer`).
- Only `PromptEndpoint.prompt` rejects an empty prompt. `Endpoint.prompt`,
  `Endpoint.ama` and `Endpoint.acceptRequest` reject only a null prompt; an empty
  one is sent on.
- Rejections are not uniform. `ama` answers 400 with a `ChatResponse` body.
  `Endpoint.prompt` and `Endpoint.acceptRequest` answer 200, although their comments
  (Endpoint.java:91, :136) say "Returns HTTP 400"; `PromptEndpoint.prompt` also
  answers 200.
- `PromptEndpoint.prompt` rejects a null or empty prompt before it reads
  `maxTokenLength` or draws the random hash, so the rejection holds for any
  configured limit, random value or line separator
  (`PromptEndpoint.RejectionIgnoresProvider`).
- The handlers do not turn transport failures into typed results: the client's
  exception propagates out of the handler (`Thrown`).

## Left out

- Spring wiring: controller and bean annotations, `@Value` injection, and the two
  controllers both mapping `/prompt`. Each handler is a separate function.
- The outbound calls are a `provider` function parameter. This covers
  `getChatCompletions`, `postForEntity` and `WebClient … block()`. Which HTTP
  statuses the client libraries turn into exceptions is decided by that function.
- `SecureRandom` and `BigInteger(130, random)` generation: the random value is a
  parameter below 2^130. Its rendering is modelled.
- PromptEndpoint.Prompt: `System.getProperty` lookups are not modelled. The
  key, deployment and base URL arrive already resolved, so a property that is
  missing (null) is not modelled.
- PromptEndpoint.CreateMessages: requires `maxTokenLength >= 0`, and so does
  `PromptEndpoint.Prompt` for a non-empty prompt. With a negative
  value, `substring(0, negative)` throws `StringIndexOutOfBoundsException`. A null
  `Integer` fails when it is unboxed. Neither failure is modelled.
- Jackson serialisation beyond the field order and names. `WireValue` is a
  simplified value, and the reply bodies are not deserialised.
- `UriComponentsBuilder` parsing and percent-encoding: the target is plain
  concatenation. How WebClient resolves its path against its base URL is not
  modelled either; the call records both parts.
- Headers the RestTemplate sets before its interceptor runs arrive as the
  `prepared` parameter. Header-name case-insensitivity is not modelled.
- Logging, and the `logRequest` filter, which only logs.
- Floating-point sampling values (temperatures 0.2, 0.7 and the configured one;
  top_p 0.95; penalties 0). They are opaque `Double` literals, and nothing numeric
  is proved about them.
- Choice contents are non-null strings. `String.join` would print a null content
  as "null".
- Java strings are UTF-16. A `string` here has one `char` per code unit, and a cut
  through a surrogate pair is not treated specially.
- `buildOpenAIClient` is modelled only by the endpoint and key recorded in the call.
- `src/test/java/chat/app/OpenAIConfigTest.java` is a network test of
  `buildWebClient` with no logic of its own.
- `Request`, `BotResponse`, `Message`, `Choice` and `ChatResponse` live in files
  this model does not cover; their shapes are those the handlers use.

=== FILE: base32.dfy ===
/** The random cache-busting hash: `new BigInteger(130, random).toString(32)`.
    The 130-bit value is a parameter; its rendering is modelled exactly. */
module Base32 {

  /** Number of random bits in the value behind the hash. */
  const RandomBits: nat := 130

  /** At most this many base-32 digits render a value below 2^RandomBits. */
  const MaxHashLength: nat := 26

  function Pow(b: nat, e: nat): nat
  {
    if e == 0 then 1 else b * Pow(b, e - 1)
  }

  /** The digits `Character.forDigit` uses for radix 32: 0-9 then a-v. */
  predicate IsDigit(c: char)
  {
    '0' <= c <= '9' || 'a' <= c <= 'v'
  }

  predicate AllDigits(s: string)
  {
    forall i :: 0 <= i < |s| ==> IsDigit(s[i])
  }

  function DigitChar(d: nat): (c: char)
    requires d < 32
    ensures IsDigit(c)
    ensures c == '0' <==> d == 0
  {
    if d < 10 then ('0' as int + d) as char else ('a' as int + d - 10) as char
  }

  function DigitValue(c: char): (d: nat)
    requires IsDigit(c)
    ensures d < 32
    ensures DigitChar(d) == c
  {
    if c <= '9' then (c as int - '0' as int) else (c as int - 'a' as int + 10)
  }

  /** The two digit maps are inverse to each other. */
  lemma DigitRoundTrip(d: nat)
    requires d < 32
    ensures DigitValue(DigitChar(d)) == d
  {
  }

  /** `BigInteger.toString(32)` of a non-negative value: most significant digit
      first, no leading zeros, "0" for zero. */
  function ToBase32(n: nat): (s: string)
    ensures |s| >= 1
    ensures AllDigits(s)
    ensures s[0] == '0' ==> n == 0
    decreases n
  {
    if n < 32 then [DigitChar(n)] else ToBase32(n / 32) + [DigitChar(n % 32)]
  }

  /** The value of a base-32 numeral (reference reading of a rendering). */
  function FromBase32(s: string): nat
    requires AllDigits(s)
  {
    if |s| == 0 then 0 else FromBase32(s[..|s| - 1]) * 32 + DigitValue(s[|s| - 1])
  }

  /** Reading a rendering gives back the value. */
  lemma {:induction false} FromToBase32(n: nat)
    ensures FromBase32(ToBase32(n)) == n
    decreases n
  {
    var s := ToBase32(n);
    if n < 32 {
      DigitRoundTrip(n);
    } else {
      FromToBase32(n / 32);
      assert s[..|s| - 1] == ToBase32(n / 32);
      DigitRoundTrip(n % 32);
    }
  }

  /** A numeral without a leading zero has a positive value. */
  lemma {:induction false} LeadingDigitPositive(s: string)
    requires |s| >= 1 && AllDigits(s) && s[0] != '0'
    ensures FromBase32(s) > 0
    decreases |s|
  {
    if |s| > 1 {
      LeadingDigitPositive(s[..|s| - 1]);
    } else {
      assert DigitChar(DigitValue(s[0])) == s[0];
    }
  }

  /** Rendering the value of a canonical numeral gives back the numeral, so every
      canonical numeral is the rendering of exactly one value. */
  lemma {:induction false} ToFromBase32(s: string)
    requires |s| >= 1 && AllDigits(s)
    requires s[0] == '0' ==> |s| == 1
    ensures ToBase32(FromBase32(s)) == s
    decreases |s|
  {
    var last := DigitValue(s[|s| - 1]);
    if |s| == 1 {
      assert FromBase32(s[..0]) == 0;
    } else {
      var init := s[..|s| - 1];
      LeadingDigitPositive(init);
      ToFromBase32(init);
      var n := FromBase32(s);
      assert n == FromBase32(init) * 32 + last;
      assert n / 32 == FromBase32(init) && n % 32 == last;
      assert s == init + [s[|s| - 1]];
    }
  }

  /** A value below 32^k renders in at most k digits. */
  lemma {:induction false} ToBase32Length(n: nat, k: nat)
    requires k >= 1 && n < Pow(32, k)
    ensures |ToBase32(n)| <= k
    decreases n
  {
    if n >= 32 {
      assert n / 32 < Pow(32, k - 1);
      ToBase32Length(n / 32, k - 1);
    }
  }

  /** 2^(5k) == 32^k. */
  lemma {:induction false} PowTwoFive(k: nat)
    ensures Pow(2, 5 * k) == Pow(32, k)
  {
    if k > 0 {
      PowTwoFive(k - 1);
      var e := 5 * (k - 1);
      calc {
        Pow(2, 5 * k);
        2 * Pow(2, e + 4);
        4 * Pow(2, e + 3);
        8 * Pow(2, e + 2);
        16 * Pow(2, e + 1);
        32 * Pow(2, e);
      }
    }
  }

  /** The hash `generateRandomHash` produces from the random value `n`:
      between 1 and 26 base-32 digits, so never a line break. */
  function RandomHash(n: nat): (hash: string)
    requires n < Pow(2, RandomBits)
    ensures 1 <= |hash| <= MaxHashLength
    ensures AllDigits(hash)
    ensures '\n' !in hash
    ensures FromBase32(hash) == n
  {
    PowTwoFive(MaxHashLength);
    ToBase32Length(n, MaxHashLength);
    FromToBase32(n);
    ToBase32(n)
  }
}

=== FILE: completions.dfy ===
/** The Azure SDK chat-completions values the `/prompt` handlers use, and the
    loop both of them run over the returned choices. */
module Completions {
  import opened OpenAIModel
  import opened Text

  datatype ChatRole = System | User | Assistant

  datatype ChatMessage = ChatMessage(role: ChatRole, content: string)

  /** One choice of the provider's reply; `index` is the provider's own numbering. */
  datatype ChatChoice = ChatChoice(index: int, message: ChatMessage)

  /** `ChatCompletionsOptions`: the messages and the sampling temperature. */
  datatype Options = Options(messages: seq<ChatMessage>, temperature: Double)

  /** One `getChatCompletions` call: the client's endpoint and key, the
      deployment name, and the options. */
  datatype Call = Call(endpoint: string, apiKey: string, deployment: string, options: Options)

  /** A system message first and the user's message last, and nothing else. */
  predicate SdkSystemThenUser(messages: seq<ChatMessage>)
  {
    |messages| == 2 && messages[0].role == System && messages[1].role == User
  }

  /** The message contents of the choices, one per choice, in the order given. */
  function Contents(choices: seq<ChatChoice>): (texts: seq<string>)
    ensures |texts| == |choices|
    ensures forall i :: 0 <= i < |choices| ==> texts[i] == choices[i].message.content
  {
    if |choices| == 0 then [] else [choices[0].message.content] + Contents(choices[1..])
  }

  /** The handlers' loop over `getChoices()`: one content per choice, appended
      in iteration order; the index is only logged. */
  method CollectResponses(choices: seq<ChatChoice>) returns (responses: seq<string>)
    ensures |responses| == |choices|
    ensures forall i :: 0 <= i < |choices| ==> responses[i] == choices[i].message.content
    ensures responses == Contents(choices)
  {
    responses := [];
    var k := 0;
    while k < |choices|
      invariant 0 <= k <= |choices|
      invariant |responses| == k
      invariant forall i :: 0 <= i < k ==> responses[i] == choices[i].message.content
    {
      responses := responses + [choices[k].message.content];
      k := k + 1;
    }
  }

  /** The choices' indexes play no part: replies that differ only in their
      indexes give the same texts. */
  lemma ContentsIgnoreIndex(a: seq<ChatChoice>, b: seq<ChatChoice>)
    requires |a| == |b|
    requires forall i :: 0 <= i < |a| ==> a[i].message == b[i].message
    ensures Contents(a) == Contents(b)
  {
  }

  /** Choices numbered 2 then 1 come out in the order given, not by number. */
  lemma ContentsKeepReplyOrder()
    ensures Contents([ChatChoice(2, ChatMessage(Assistant, "b")), ChatChoice(1, ChatMessage(Assistant, "a"))])
      == ["b", "a"]
  {
  }

  /** The response body: the choices' contents joined with `separator`. */
  function Answer(choices: seq<ChatChoice>, separator: string): (body: string)
    ensures |choices| == 0 ==> body == ""
    ensures |choices| == 1 ==> body == choices[0].message.content
    ensures |choices| >= 1 ==>
      |body| == TotalLength(Contents(choices)) + (|choices| - 1) * |separator|
  {
    if |choices| == 0 then ""
    else
      JoinLength(separator, Contents(choices));
      Join(separator, Contents(choices))
  }

  /** One more choice extends the body by the separator and that choice's
      content, for any separator ("\n" or "\r\n" alike). */
  lemma AnswerSnoc(choices: seq<ChatChoice>, choice: ChatChoice, separator: string)
    requires |choices| >= 1
    ensures Answer(choices + [choice], separator)
      == Answer(choices, separator) + separator + choice.message.content
  {
    assert Contents(choices + [choice]) == Contents(choices) + [choice.message.content];
    JoinSnoc(separator, Contents(choices), choice.message.content);
  }

  /** With a line-break separator and single-line contents, the body splits
      back into exactly the choices' contents, in order. */
  lemma AnswerLines(choices: seq<ChatChoice>)
    requires |choices| >= 1
    requires forall i :: 0 <= i < |choices| ==> '\n' !in choices[i].message.content
    ensures Split(Answer(choices, "\n"), '\n') == Contents(choices)
  {
    SplitJoin(Contents(choices), '\n');
  }
}

=== FILE: endpoint.dfy ===
/** `Endpoint`: the `/ama`, `/prompt` and `/chat` handlers, each with its own
    transport (RestTemplate, SDK client, WebClient). */
module Endpoint {
  import opened Wrappers
  import opened Http
  import opened Text
  import opened OpenAIModel
  import opened OpenAIConfig
  import opened Completions

  const NullPromptMessage: string := "User request cannot be null"
  const NoResponse: string := "No RESPONSE"
  const ApiVersionParameter: string := "api-version"
  const ApiVersion: string := "2023-07-01-preview"
  const Deployment: string := "gpt35-deployment"
  const PromptTemperature: Double := Double("0.2")

  /** The fixed system message of the `/prompt` handler (a Java text block, so
      its lines lose their common indentation and each ends with a line break). */
  const SeniorEngineerPreamble: string :=
    "You are an effective Senior Software Engineer helping a junior software engineer in analysing and\n"
    + "understanding complex technical problems.\n"
    + "User gives you some message, and you need to generate a precise response.\n"
    + "\n"
    + "Instructions:\n"
    + "- Be concise\n"
    + "- Be pragmatic and go to the point\n"
    + "- Be technical\n"
    + "- Refrain from self referrals, such \"I suggest...\"\n"

  /** The body of the `/chat` handler's response. */
  datatype BotResponse = BotResponse(response: string)

  /** The constant answer of `/ama` to a null prompt: HTTP 400 with one choice. */
  const NullPromptResponse: Response<ChatResponse> :=
    Response(StatusBadRequest, ChatResponse([Choice(1, Message("", NullPromptMessage))]))

  /** A URI: a path and its query parameters in order. */
  datatype Uri = Uri(path: string, query: seq<(string, string)>)

  function QueryPairs(query: seq<(string, string)>): (pairs: seq<string>)
    ensures |pairs| == |query|
    ensures forall i :: 0 <= i < |query| ==> pairs[i] == query[i].0 + "=" + query[i].1
  {
    if |query| == 0 then [] else [query[0].0 + "=" + query[0].1] + QueryPairs(query[1..])
  }

  /** The URI as a string; no percent-encoding is modelled. */
  function UriString(u: Uri): string
  {
    if |u.query| == 0 then u.path else u.path + "?" + Join("&", QueryPairs(u.query))
  }

  /** The `/ama` target: base URL, a slash, the endpoint, and the API version. */
  function AmaUri(config: Config): (u: Uri)
    ensures u.query == [(ApiVersionParameter, ApiVersion)]
  {
    Uri(config.baseUrl + "/" + config.endpoint, [(ApiVersionParameter, ApiVersion)])
  }

  /** The rendered `/ama` target is the joined path followed by the single
      API-version parameter; when the path has no `?` of its own, it splits at
      the `?` back into those two parts. */
  lemma AmaUriString(config: Config)
    ensures UriString(AmaUri(config))
      == config.baseUrl + "/" + config.endpoint + "?" + ApiVersionParameter + "=" + ApiVersion
    ensures '?' !in config.baseUrl + "/" + config.endpoint ==>
      SplitOnce(UriString(AmaUri(config)), '?')
        == (config.baseUrl + "/" + config.endpoint, Some(ApiVersionParameter + "=" + ApiVersion))
  {
    var path := config.baseUrl + "/" + config.endpoint;
    var pair := ApiVersionParameter + "=" + ApiVersion;
    assert QueryPairs(AmaUri(config).query) == [pair];
    assert UriString(AmaUri(config)) == path + "?" + pair;
    if '?' !in path {
      SplitOnceAt(path, '?', pair);
    }
  }

  /** A `postForEntity` call made through the intercepted RestTemplate. */
  datatype RestCall = RestCall(uri: Uri, headers: seq<Header>, body: ChatRequest)

  /** A WebClient POST: the client's base URL, the path given to `uri`, the
      client's default headers, and the body. */
  datatype WebCall = WebCall(baseUrl: string, path: string, headers: seq<Header>, body: ChatRequest)

  /** `ama`: a null prompt gets the constant 400 response and nothing is sent;
      otherwise the fixed request is posted and the provider's response is
      returned as it is. `prepared` are the headers the RestTemplate sets before
      its interceptor runs. */
  function Ama(
    config: Config, request: Request, prepared: seq<Header>,
    provider: RestCall -> Result<Response<ChatResponse>, Fault>): (h: Handled<RestCall, ChatResponse>)
    ensures h.sent.None? <==> request.prompt.None?
    ensures h.sent.None? ==> h.outcome == Returned(NullPromptResponse)
    ensures h.sent.Some? ==>
      && h.sent.value.uri == AmaUri(config)
      && h.sent.value.body == BuildRequest(config, request.prompt.value)
      && h.sent.value.headers == Intercept(config, prepared)
      && h.outcome == (match provider(h.sent.value)
                       case Success(response) => Returned(response)
                       case Failure(fault) => Thrown(fault))
  {
    if request.prompt.None? then Handled(None, Returned(NullPromptResponse))
    else
      var call := RestCall(AmaUri(config), Intercept(config, prepared), BuildRequest(config, request.prompt.value));
      match provider(call)
      case Success(response) => Handled(Some(call), Returned(response))
      case Failure(fault) => Handled(Some(call), Thrown(fault))
  }

  /** The constant `/ama` rejection carries exactly one choice, numbered 1, whose
      content is the rejection message. */
  lemma AmaRejection(
    config: Config, prepared: seq<Header>, provider: RestCall -> Result<Response<ChatResponse>, Fault>)
    ensures var h := Ama(config, Request(None), prepared, provider);
      && h.outcome.Returned?
      && h.outcome.response.status == StatusBadRequest
      && |h.outcome.response.body.choices| == 1
      && h.outcome.response.body.choices[0].index == 1
      && h.outcome.response.body.choices[0].message.content == NullPromptMessage
  {
  }

  /** The client call of `/prompt`: the configured endpoint and key, the fixed
      deployment and temperature, the fixed system message and the prompt. */
  function PromptCall(config: Config, prompt: string): (call: Call)
    ensures call.endpoint == config.baseUrl && call.apiKey == config.apiKey
    ensures SdkSystemThenUser(call.options.messages)
    ensures call.options.messages[0].content == SeniorEngineerPreamble
    ensures call.options.messages[1].content == prompt
  {
    Call(config.baseUrl, config.apiKey, Deployment,
      Options([ChatMessage(System, SeniorEngineerPreamble), ChatMessage(User, prompt)], PromptTemperature))
  }

  /** `prompt`: only a null prompt is rejected, with status 200; an empty one is
      sent on. The reply's contents are joined with a line break. */
  function Prompt(
    config: Config, request: Request,
    provider: Call -> Result<seq<ChatChoice>, Fault>): (h: Handled<Call, string>)
    ensures h.sent.None? <==> request.prompt.None?
    ensures h.sent.None? ==> h.outcome == Returned(Response(StatusOk, NullPromptMessage))
    ensures h.sent.Some? ==> h.sent.value == PromptCall(config, request.prompt.value)
    ensures h.sent.Some? && provider(h.sent.value).Failure? ==>
      h.outcome == Thrown(provider(h.sent.value).error)
    ensures h.sent.Some? && provider(h.sent.value).Success? ==>
      h.outcome == Returned(Response(StatusOk, Answer(provider(h.sent.value).value, "\n")))
  {
    if request.prompt.None? then Handled(None, Returned(Response(StatusOk, NullPromptMessage)))
    else
      var call := PromptCall(config, request.prompt.value);
      match provider(call)
      case Failure(fault) => Handled(Some(call), Thrown(fault))
      case Success(choices) => Handled(Some(call), Returned(Response(StatusOk, Answer(choices, "\n"))))
  }

  /** The user's text reaches the provider unchanged, and with one choice in
      the reply the body is that choice's content. */
  lemma PromptSingleChoice(
    config: Config, prompt: string,
    provider: Call -> Result<seq<ChatChoice>, Fault>, choice: ChatChoice)
    requires provider(PromptCall(config, prompt)) == Success([choice])
    ensures var h := Prompt(config, Request(Some(prompt)), provider);
      && h.sent.Some? && h.sent.value.options.messages[1].content == prompt
      && h.outcome == Returned(Response(StatusOk, choice.message.content))
  {
  }

  /** `callOpenAI`: the fixed request posted through the configured WebClient. */
  function CallOpenAI(config: Config, prompt: string): (call: WebCall)
    ensures call.baseUrl == config.baseUrl && call.path == config.endpoint
    ensures UserPrompt(call.body) == Some(prompt)
    ensures Values(call.headers, ApiKeyHeader) == [config.apiKey]
  {
    WebCall(config.baseUrl, config.endpoint, WebClientHeaders(config), BuildRequest(config, prompt))
  }

  /** `acceptRequest`: a null prompt gets "No RESPONSE" with status 200 and
      `callOpenAI` is not invoked; otherwise the call's response is returned. */
  function AcceptRequest(
    config: Config, request: Request,
    provider: WebCall -> Result<Response<BotResponse>, Fault>): (h: Handled<WebCall, BotResponse>)
    ensures h.sent.None? <==> request.prompt.None?
    ensures h.sent.None? ==> h.outcome == Returned(Response(StatusOk, BotResponse(NoResponse)))
    ensures h.sent.Some? ==>
      && h.sent.value == CallOpenAI(config, request.prompt.value)
      && h.outcome == (match provider(h.sent.value)
                       case Success(response) => Returned(response)
                       case Failure(fault) => Thrown(fault))
  {
    if request.prompt.None? then Handled(None, Returned(Response(StatusOk, BotResponse(NoResponse))))
    else
      var call := CallOpenAI(config, request.prompt.value);
      match provider(call)
      case Success(response) => Handled(Some(call), Returned(response))
      case Failure(fault) => Handled(Some(call), Thrown(fault))
  }

  /** `ama` and `acceptRequest` send the same request body for the same prompt. */
  lemma SameRequestBody(
    config: Config, prompt: string, prepared: seq<Header>,
    restProvider: RestCall -> Result<Response<ChatResponse>, Fault>,
    webProvider: WebCall -> Result<Response<BotResponse>, Fault>)
    ensures var a := Ama(config, Request(Some(prompt)), prepared, restProvider);
      var c := AcceptRequest(config, Request(Some(prompt)), webProvider);
      && a.sent.Some? && c.sent.Some?
      && a.sent.value.body == c.sent.value.body
      && UserPrompt(a.sent.value.body) == Some(prompt)
  {
  }
}

=== FILE: http.dfy ===
/** HTTP-level values shared by the handlers: headers, responses, and the record
    of what a handler sent out and what it gave back. */
module Http {
  import opened Wrappers

  const StatusOk: int := 200
  const StatusBadRequest: int := 400

  /** The inbound JSON body `{"prompt": ...}`; `None` is a missing or null prompt. */
  datatype Request = Request(prompt: Option<string>)

  datatype Header = Header(name: string, value: string)

  /** A `ResponseEntity`: a status code and a body. */
  datatype Response<+T> = Response(status: int, body: T)

  /** Why an outbound call produced no reply: an error status the client library
      turns into an exception, or a failure of the network call itself. */
  datatype Fault = ErrorStatus(status: int) | NetworkFailure(detail: string)

  /** What a handler ends with: a response, or the outbound call's exception,
      which the handler does not catch. */
  datatype Outcome<+T> = Returned(response: Response<T>) | Thrown(fault: Fault)

  /** One handler invocation: the outbound request it sent, if any, and its outcome. */
  datatype Handled<+Req, +T> = Handled(sent: Option<Req>, outcome: Outcome<T>)

  /** Every value given for header `name`, in the order the headers were added. */
  function Values(headers: seq<Header>, name: string): (vs: seq<string>)
    ensures |vs| <= |headers|
  {
    if |headers| == 0 then []
    else (if headers[0].name == name then [headers[0].value] else []) + Values(headers[1..], name)
  }

  /** Adding headers never hides the values already present for a name. */
  lemma {:induction false} ValuesAppend(a: seq<Header>, b: seq<Header>, name: string)
    ensures Values(a + b, name) == Values(a, name) + Values(b, name)
  {
    if |a| > 0 {
      assert (a + b)[1..] == a[1..] + b;
      ValuesAppend(a[1..], b, name);
    } else {
      assert a + b == b;
    }
  }
}

=== FILE: openai_config.dfy ===
/** `OpenAIConfig`: the fixed request built for the `/ama` and `/chat` handlers,
    and the headers its HTTP clients attach to every outbound call. */
module OpenAIConfig {
  import opened Wrappers
  import opened Http
  import opened OpenAIModel

  /** The configured key, base URL and endpoint path. */
  datatype Config = Config(apiKey: string, baseUrl: string, endpoint: string)

  const SystemPreamble: string := "You are an AI assistant that helps people find information."
  const RequestMaxTokens: int := 800
  const ApiKeyHeader: string := "api-key"
  const AuthorizationHeader: string := "Authorization"
  const ContentTypeHeader: string := "Content-Type"
  const JsonMediaType: string := "application/json"
  const UserAgentHeader: string := "User-Agent"
  const UserAgent: string :=
    "Mozilla/5.0 (Windows NT 10.0; Win64; x64) AppleWebKit/537.36 (KHTML, like Gecko) Chrome/58.0.3029.110 Safari/537.3"
  const BearerPrefix: string := "Bearer "

  /** A system message first and the user's message last, and nothing else. */
  predicate SystemThenUser(messages: seq<Message>)
  {
    |messages| == 2 && messages[0].role == "system" && messages[1].role == "user"
  }

  /** The content of the request's final user message, if it has one. */
  function UserPrompt(r: ChatRequest): Option<string>
  {
    if |r.messages| > 0 && r.messages[|r.messages| - 1].role == "user"
    then Some(r.messages[|r.messages| - 1].content)
    else None
  }

  /** `buildRequest(prompt)`. The configuration is a parameter only to show that
      the request does not depend on it. */
  function BuildRequest(config: Config, prompt: string): (r: ChatRequest)
    ensures SystemThenUser(r.messages)
    ensures r.messages[0].content == SystemPreamble
    ensures UserPrompt(r) == Some(prompt)
    ensures r.maxTokens == RequestMaxTokens
    ensures r.stopSequence == None
  {
    ChatRequest(
      [Message("system", SystemPreamble), Message("user", prompt)],
      RequestMaxTokens, Double("0.7"), Double("0"), Double("0"), Double("0.95"), None)
  }

  /** The request depends on the prompt alone. */
  lemma BuildRequestIgnoresConfig(a: Config, b: Config, prompt: string)
    ensures BuildRequest(a, prompt) == BuildRequest(b, prompt)
  {
  }

  /** Different prompts give different requests: the prompt is carried verbatim. */
  lemma BuildRequestInjective(config: Config, p: string, q: string)
    ensures BuildRequest(config, p) == BuildRequest(config, q) <==> p == q
  {
  }

  /** The headers the `openaiRestTemplate` interceptor adds, in order. */
  function InterceptorHeaders(config: Config): seq<Header>
  {
    [Header(UserAgentHeader, UserAgent),
     Header(ContentTypeHeader, JsonMediaType),
     Header(AuthorizationHeader, BearerPrefix + config.apiKey),
     Header(ApiKeyHeader, config.apiKey)]
  }

  /** What each credential or content header is given by the interceptor's list. */
  lemma InterceptorValues(config: Config)
    ensures Values(InterceptorHeaders(config), ApiKeyHeader) == [config.apiKey]
    ensures Values(InterceptorHeaders(config), AuthorizationHeader) == [BearerPrefix + config.apiKey]
    ensures Values(InterceptorHeaders(config), ContentTypeHeader) == [JsonMediaType]
    ensures Values(InterceptorHeaders(config), UserAgentHeader) == [UserAgent]
  {
    var h := InterceptorHeaders(config);
    forall name | name in {ApiKeyHeader, AuthorizationHeader, ContentTypeHeader, UserAgentHeader}
      ensures Values(h, name) ==
        (if h[0].name == name then [h[0].value] else []) +
        (if h[1].name == name then [h[1].value] else []) +
        (if h[2].name == name then [h[2].value] else []) +
        (if h[3].name == name then [h[3].value] else [])
    {
      assert Values(h[4..], name) == [];
      assert Values(h[3..], name) == (if h[3].name == name then [h[3].value] else []) + Values(h[4..], name);
      assert Values(h[2..], name) == (if h[2].name == name then [h[2].value] else []) + Values(h[3..], name);
      assert Values(h[1..], name) == (if h[1].name == name then [h[1].value] else []) + Values(h[2..], name);
    }
  }

  /** The interceptor: the request's own headers, then the four it adds. */
  function Intercept(config: Config, prepared: seq<Header>): (h: seq<Header>)
    ensures prepared <= h && |h| == |prepared| + 4
    ensures Values(h, ApiKeyHeader) == Values(prepared, ApiKeyHeader) + [config.apiKey]
    ensures Values(h, AuthorizationHeader) == Values(prepared, AuthorizationHeader) + [BearerPrefix + config.apiKey]
    ensures Values(h, ContentTypeHeader) == Values(prepared, ContentTypeHeader) + [JsonMediaType]
    ensures Values(h, UserAgentHeader) == Values(prepared, UserAgentHeader) + [UserAgent]
  {
    InterceptorValues(config);
    ValuesAppend(prepared, InterceptorHeaders(config), ApiKeyHeader);
    ValuesAppend(prepared, InterceptorHeaders(config), AuthorizationHeader);
    ValuesAppend(prepared, InterceptorHeaders(config), ContentTypeHeader);
    ValuesAppend(prepared, InterceptorHeaders(config), UserAgentHeader);
    prepared + InterceptorHeaders(config)
  }

  /** The token of an `Authorization: Bearer <token>` value. */
  function BearerToken(value: string): Option<string>
  {
    if |value| >= |BearerPrefix| && value[..|BearerPrefix|] == BearerPrefix
    then Some(value[|BearerPrefix|..])
    else None
  }

  /** Both credential headers the interceptor adds carry the configured key. */
  lemma InterceptedCredentialsAgree(config: Config, prepared: seq<Header>)
    ensures var h := Intercept(config, prepared);
      var auth := Values(h, AuthorizationHeader);
      var keys := Values(h, ApiKeyHeader);
      && |auth| > 0 && |keys| > 0
      && BearerToken(auth[|auth| - 1]) == Some(keys[|keys| - 1])
      && keys[|keys| - 1] == config.apiKey
  {
  }

  /** The default headers of the client `buildWebClient` returns. */
  function WebClientHeaders(config: Config): (h: seq<Header>)
    ensures Values(h, ContentTypeHeader) == [JsonMediaType]
    ensures Values(h, ApiKeyHeader) == [config.apiKey]
    ensures Values(h, AuthorizationHeader) == []
    ensures |h| == 2
    ensures forall x :: x in h ==> x.name == ContentTypeHeader || x.name == ApiKeyHeader
  {
    [Header(ContentTypeHeader, JsonMediaType), Header(ApiKeyHeader, config.apiKey)]
  }
}

=== FILE: openai_model.dfy ===
/** The records of package chat.app.openai that travel over the wire: the
    `ChatRequest` body and the `Message`, `Choice` and `ChatResponse` values. */
module OpenAIModel {
  import opened Wrappers

  /** A Java `double`, known only by the literal it was written as. No arithmetic
      on it is modelled. */
  datatype Double = Double(literal: string)

  /** A role name ("system", "user", ...) and the text of one chat message. */
  datatype Message = Message(role: string, content: string)

  datatype Choice = Choice(index: int, message: Message)

  datatype ChatResponse = ChatResponse(choices: seq<Choice>)

  /** The `ChatRequest` record; `stopSequence` is `None` when the Java field is null. */
  datatype ChatRequest = ChatRequest(
    messages: seq<Message>,
    maxTokens: int,
    temperature: Double,
    frequencyPenalty: Double,
    presencePenalty: Double,
    topP: Double,
    stopSequence: Option<set<string>>)

  /** The record's components. */
  datatype Component =
    | Messages | MaxTokens | Temperature | FrequencyPenalty | PresencePenalty | TopP | StopSequence

  /** The components in declaration order, which is also the JSON field order. */
  const Components: seq<Component> :=
    [Messages, MaxTokens, Temperature, FrequencyPenalty, PresencePenalty, TopP, StopSequence]

  /** The JSON field name of each component, after its `@JsonProperty` renaming. */
  function WireName(c: Component): string
  {
    match c
    case Messages => "messages"
    case MaxTokens => "max_tokens"
    case Temperature => "temperature"
    case FrequencyPenalty => "frequency_penalty"
    case PresencePenalty => "presence_penalty"
    case TopP => "top_p"
    case StopSequence => "stop"
  }

  /** Each component appears exactly once in the declaration order. */
  lemma ComponentsAreAllDistinct()
    ensures |Components| == 7
    ensures forall c: Component :: c in Components
    ensures forall i, j :: 0 <= i < j < |Components| ==> Components[i] != Components[j]
  {
    forall c: Component ensures c in Components {
      match c
      case Messages => assert Components[0] == c;
      case MaxTokens => assert Components[1] == c;
      case Temperature => assert Components[2] == c;
      case FrequencyPenalty => assert Components[3] == c;
      case PresencePenalty => assert Components[4] == c;
      case TopP => assert Components[5] == c;
      case StopSequence => assert Components[6] == c;
    }
  }

  /** No two components share a JSON field name. */
  lemma WireNameInjective(a: Component, b: Component)
    ensures WireName(a) == WireName(b) <==> a == b
  {
  }

  /** A JSON field value, at the granularity the model needs. */
  datatype WireValue =
    | MessageList(messages: seq<Message>)
    | Integer(i: int)
    | Number(d: Double)
    | StringSet(strings: set<string>)
    | Null

  function ValueOf(r: ChatRequest, c: Component): WireValue
  {
    match c
    case Messages => MessageList(r.messages)
    case MaxTokens => Integer(r.maxTokens)
    case Temperature => Number(r.temperature)
    case FrequencyPenalty => Number(r.frequencyPenalty)
    case PresencePenalty => Number(r.presencePenalty)
    case TopP => Number(r.topP)
    case StopSequence => if r.stopSequence.Some? then StringSet(r.stopSequence.value) else Null
  }

  /** The request as the ordered list of JSON fields it is serialised to. */
  function ToWire(r: ChatRequest): (fields: seq<(string, WireValue)>)
    ensures |fields| == |Components|
    ensures forall i :: 0 <= i < |fields| ==> fields[i].0 == WireName(Components[i])
  {
    seq(|Components|, i requires 0 <= i < |Components| =>
      (WireName(Components[i]), ValueOf(r, Components[i])))
  }

  /** Reads the seven fields back, in order and under their wire names. */
  function FromWire(fields: seq<(string, WireValue)>): Option<ChatRequest>
  {
    if |fields| != 7 then None
    else if exists i :: 0 <= i < 7 && fields[i].0 != WireName(Components[i]) then None
    else
      match (fields[0].1, fields[1].1, fields[2].1, fields[3].1, fields[4].1, fields[5].1, fields[6].1)
      case (MessageList(m), Integer(mt), Number(t), Number(fp), Number(pp), Number(tp), StringSet(st)) =>
        Some(ChatRequest(m, mt, t, fp, pp, tp, Some(st)))
      case (MessageList(m), Integer(mt), Number(t), Number(fp), Number(pp), Number(tp), Null) =>
        Some(ChatRequest(m, mt, t, fp, pp, tp, None))
      case _ => None
  }

  /** Serialising and reading back gives the same request, null stop set included. */
  lemma WireRoundTrip(r: ChatRequest)
    ensures FromWire(ToWire(r)) == Some(r)
  {
  }

  /** Two requests serialise alike exactly when all seven components are equal. */
  lemma WireEqualIffEqual(a: ChatRequest, b: ChatRequest)
    ensures ToWire(a) == ToWire(b) <==> a == b
  {
    if ToWire(a) == ToWire(b) {
      WireRoundTrip(a);
      WireRoundTrip(b);
    }
  }
}

=== FILE: prompt_endpoint.dfy ===
/** `PromptEndpoint.prompt`: the `/prompt` handler that prefixes the user's text
    with a random hash, cuts it to the configured length and calls the SDK client. */
module PromptEndpoint {
  import opened Wrappers
  import opened Http
  import opened Text
  import opened Base32
  import opened OpenAIModel
  import opened Completions

  /** The handler's configuration values, already resolved to the strings the
      code reads from the system properties. */
  datatype Settings = Settings(
    baseUrl: string,
    deployment: string,
    apiKey: string,
    temperature: Double,
    systemMessage: string,
    maxTokenLength: int)

  const EmptyPromptMessage: string := "User prompt cannot be empty"

  /** `String.format("%s\n%s", hash, prompt)`. */
  function CompletePrompt(hash: string, prompt: string): string
  {
    hash + "\n" + prompt
  }

  /** `createGpt35ChatMessages`: the system message, then the hash-prefixed
      prompt cut to at most `maxTokenLength` characters. */
  function CreateMessages(settings: Settings, hash: string, prompt: string): (messages: seq<ChatMessage>)
    requires settings.maxTokenLength >= 0
    ensures SdkSystemThenUser(messages)
    ensures messages[0].content == settings.systemMessage
    ensures messages[1].content <= CompletePrompt(hash, prompt)
    ensures |messages[1].content| == Min(settings.maxTokenLength, |hash| + 1 + |prompt|)
    ensures settings.maxTokenLength >= |hash| + 1 + |prompt| ==>
      messages[1].content == CompletePrompt(hash, prompt)
  {
    [ChatMessage(System, settings.systemMessage),
     ChatMessage(User, Truncate(CompletePrompt(hash, prompt), settings.maxTokenLength))]
  }

  /** The client call for a non-empty prompt and the random value behind the hash. */
  function PromptCall(settings: Settings, prompt: string, randomValue: nat): (call: Call)
    requires settings.maxTokenLength >= 0
    requires randomValue < Pow(2, RandomBits)
    ensures call.endpoint == settings.baseUrl && call.apiKey == settings.apiKey
    ensures call.deployment == settings.deployment
    ensures call.options.temperature == settings.temperature
    ensures SdkSystemThenUser(call.options.messages)
  {
    Call(settings.baseUrl, settings.apiKey, settings.deployment,
      Options(CreateMessages(settings, RandomHash(randomValue), prompt), settings.temperature))
  }

  /** The `/prompt` handler. A null or empty prompt is answered at once and no
      client call is made; otherwise the reply's contents are joined with the
      platform line separator, and a failed call's exception propagates. */
  function Prompt(
    settings: Settings, request: Request, randomValue: nat, lineSeparator: string,
    provider: Call -> Result<seq<ChatChoice>, Fault>): (h: Handled<Call, string>)
    requires request.prompt.Some? && request.prompt.value != "" ==> settings.maxTokenLength >= 0
    requires request.prompt.Some? && request.prompt.value != "" ==> randomValue < Pow(2, RandomBits)
    ensures h.sent.None? <==> request.prompt == None || request.prompt == Some("")
    ensures h.sent.None? ==> h.outcome == Returned(Response(StatusOk, EmptyPromptMessage))
    ensures h.sent.Some? ==> h.sent.value == PromptCall(settings, request.prompt.value, randomValue)
    ensures h.sent.Some? && provider(h.sent.value).Failure? ==>
      h.outcome == Thrown(provider(h.sent.value).error)
    ensures h.sent.Some? && provider(h.sent.value).Success? ==>
      h.outcome == Returned(Response(StatusOk, Answer(provider(h.sent.value).value, lineSeparator)))
  {
    if request.prompt.None? || request.prompt.value == "" then
      Handled(None, Returned(Response(StatusOk, EmptyPromptMessage)))
    else
      var call := PromptCall(settings, request.prompt.value, randomValue);
      match provider(call)
      case Failure(fault) => Handled(Some(call), Thrown(fault))
      case Success(choices) => Handled(Some(call), Returned(Response(StatusOk, Answer(choices, lineSeparator))))
  }

  /** The user message is a prefix of hash, line break, prompt, of exactly the
      configured length unless the whole text is shorter. */
  lemma UserContentIsTruncatedPrefix(settings: Settings, prompt: string, randomValue: nat)
    requires settings.maxTokenLength >= 0
    requires randomValue < Pow(2, RandomBits)
    ensures var hash := RandomHash(randomValue);
      var content := PromptCall(settings, prompt, randomValue).options.messages[1].content;
      && content <= hash + "\n" + prompt
      && |content| == Min(settings.maxTokenLength, |hash| + 1 + |prompt|)
  {
  }

  /** When the limit leaves room for the hash and its line break, the first line
      of the user message is the hash and the rest is a prefix of the prompt: the
      whole prompt when nothing had to be cut. */
  lemma FirstLineIsHash(settings: Settings, prompt: string, randomValue: nat)
    requires randomValue < Pow(2, RandomBits)
    requires settings.maxTokenLength >= |RandomHash(randomValue)| + 1
    ensures var hash := RandomHash(randomValue);
      var content := PromptCall(settings, prompt, randomValue).options.messages[1].content;
      var kept := Min(settings.maxTokenLength - |hash| - 1, |prompt|);
      && SplitOnce(content, '\n') == (hash, Some(prompt[..kept]))
      && (settings.maxTokenLength >= |hash| + 1 + |prompt| ==> SplitOnce(content, '\n') == (hash, Some(prompt)))
  {
    var hash := RandomHash(randomValue);
    var content := PromptCall(settings, prompt, randomValue).options.messages[1].content;
    var kept := Min(settings.maxTokenLength - |hash| - 1, |prompt|);
    assert content == hash + "\n" + prompt[..kept];
    SplitOnceAt(hash, '\n', prompt[..kept]);
    assert prompt[..|prompt|] == prompt;
  }

  /** A limit above the longest possible hash keeps the hash line whatever the
      random value. */
  lemma FirstLineIsHashAboveMax(settings: Settings, prompt: string, randomValue: nat)
    requires randomValue < Pow(2, RandomBits)
    requires settings.maxTokenLength > MaxHashLength
    ensures SplitOnce(PromptCall(settings, prompt, randomValue).options.messages[1].content, '\n').0
      == RandomHash(randomValue)
  {
    FirstLineIsHash(settings, prompt, randomValue);
  }

  /** With one choice in the reply, the body is that choice's content, whatever
      the line separator. */
  lemma SingleChoiceIsBody(
    settings: Settings, request: Request, randomValue: nat, lineSeparator: string,
    provider: Call -> Result<seq<ChatChoice>, Fault>, choice: ChatChoice)
    requires settings.maxTokenLength >= 0
    requires randomValue < Pow(2, RandomBits)
    requires request.prompt.Some? && request.prompt.value != ""
    requires provider(PromptCall(settings, request.prompt.value, randomValue)) == Success([choice])
    ensures Prompt(settings, request, randomValue, lineSeparator, provider).outcome
      == Returned(Response(StatusOk, choice.message.content))
  {
  }

  /** A rejected prompt's answer does not depend on what the provider would say,
      nor on the settings, the random value or the line separator, none of which
      that path reads. */
  lemma RejectionIgnoresProvider(
    request: Request,
    settings: Settings, randomValue: nat, lineSeparator: string, p: Call -> Result<seq<ChatChoice>, Fault>,
    settings': Settings, randomValue': nat, lineSeparator': string, q: Call -> Result<seq<ChatChoice>, Fault>)
    requires request.prompt == None || request.prompt == Some("")
    ensures Prompt(settings, request, randomValue, lineSeparator, p)
      == Prompt(settings', request, randomValue', lineSeparator', q)
  {
  }
}

=== FILE: text.dfy ===
/** String operations of java.lang.String that the handlers rely on, on `seq<char>`
    (one `char` per UTF-16 code unit). */
module Text {
  import opened Wrappers

  function Min(a: int, b: int): (m: int)
    ensures m <= a && m <= b
    ensures m == a || m == b
  {
    if a <= b then a else b
  }

  /** `s.substring(0, Math.min(limit, s.length()))`: the longest prefix of `s`
      that has at most `limit` characters. */
  function Truncate(s: string, limit: nat): (r: string)
    ensures r <= s
    ensures |r| == Min(limit, |s|)
    ensures limit >= |s| ==> r == s
  {
    s[..Min(limit, |s|)]
  }

  /** No prefix of `s` within the limit is longer than the truncated string. */
  lemma TruncateIsLongest(s: string, limit: nat, p: string)
    requires p <= s && |p| <= limit
    ensures |p| <= |Truncate(s, limit)|
    ensures p <= Truncate(s, limit)
  {
  }

  /** `String.join(sep, parts)`: the parts in order with `sep` between neighbours. */
  function Join(sep: string, parts: seq<string>): string
  {
    if |parts| == 0 then ""
    else if |parts| == 1 then parts[0]
    else parts[0] + sep + Join(sep, parts[1..])
  }

  function TotalLength(parts: seq<string>): nat
  {
    if |parts| == 0 then 0 else |parts[0]| + TotalLength(parts[1..])
  }

  /** The joined length is the parts' total length plus one separator per gap
      between neighbours; `JoinSnoc` states the contents. */
  lemma {:induction false} JoinLength(sep: string, parts: seq<string>)
    requires |parts| >= 1
    ensures |Join(sep, parts)| == TotalLength(parts) + (|parts| - 1) * |sep|
  {
    if |parts| > 1 {
      JoinLength(sep, parts[1..]);
      assert (|parts| - 1) * |sep| == (|parts[1..]| - 1) * |sep| + |sep|;
    }
  }

  /** Appending one more part extends the joined string by the separator and
      that part: together with a single part joining to itself, this fixes the
      joined contents for any separator. */
  lemma {:induction false} JoinSnoc(sep: string, parts: seq<string>, last: string)
    requires |parts| >= 1
    ensures Join(sep, parts + [last]) == Join(sep, parts) + sep + last
  {
    if |parts| > 1 {
      assert (parts + [last])[1..] == parts[1..] + [last];
      JoinSnoc(sep, parts[1..], last);
    } else {
      assert parts + [last] == [parts[0], last];
    }
  }

  /** Splits `s` at the first occurrence of `c`: the text before it and, when
      there is one, the text after it. */
  function SplitOnce(s: string, c: char): (r: (string, Option<string>))
    ensures c !in r.0
    ensures r.1.None? ==> r.0 == s
    ensures r.1.Some? ==> s == r.0 + [c] + r.1.value
  {
    if |s| == 0 then ("", None)
    else if s[0] == c then ("", Some(s[1..]))
    else
      var (head, tail) := SplitOnce(s[1..], c);
      ([s[0]] + head, tail)
  }

  /** A text without `c`, then `c`, then anything: the split recovers both sides. */
  lemma {:induction false} SplitOnceAt(head: string, c: char, tail: string)
    requires c !in head
    ensures SplitOnce(head + [c] + tail, c) == (head, Some(tail))
  {
    if |head| > 0 {
      assert head[0] != c && head == [head[0]] + head[1..];
      assert (head + [c] + tail)[1..] == head[1..] + [c] + tail;
      SplitOnceAt(head[1..], c, tail);
    } else {
      assert head + [c] + tail == [c] + tail;
    }
  }

  /** All the pieces of `s` between occurrences of `c`, as `String.split` would
      give them with every empty piece kept. */
  function Split(s: string, c: char): (pieces: seq<string>)
    ensures |pieces| >= 1
    ensures forall i :: 0 <= i < |pieces| ==> c !in pieces[i]
    decreases |s|
  {
    var (head, tail) := SplitOnce(s, c);
    match tail
    case None => [head]
    case Some(rest) => [head] + Split(rest, c)
  }

  /** Joining with a one-character separator that no part contains is undone by
      splitting at that character. */
  lemma {:induction false} SplitJoin(parts: seq<string>, c: char)
    requires |parts| >= 1
    requires forall i :: 0 <= i < |parts| ==> c !in parts[i]
    ensures Split(Join([c], parts), c) == parts
  {
    if |parts| == 1 {
      assert Join([c], parts) == parts[0];
    } else {
      assert Join([c], parts) == parts[0] + [c] + Join([c], parts[1..]);
      SplitOnceAt(parts[0], c, Join([c], parts[1..]));
      SplitJoin(parts[1..], c);
    }
  }
}

=== FILE: wrappers.dfy ===
/** Option and Result values, used where the Java code has null or an exception. */
module Wrappers {

  /** An optional value; `None` stands for a Java `null`. */
  datatype Option<+T> = None | Some(value: T)

  /** Either a value or the failure that prevented computing it. */
  datatype Result<+R, +E> = Success(value: R) | Failure(error: E)
}
